=== FILE: README.md ===
# aiplan-mem session and email-code stores, modelled in Dafny

aiplan-mem is a small cache shared by the instances of a web application.
It keeps three things in one embedded key-value store:

- a **blacklist of revoked token signatures**. A revoked signature is
  reported as blacklisted only after a 15-second **freeze window**, so
  requests already in flight with that token still go through;
- **last-seen times** per user. This feature is switched off: saving does
  nothing and reading always gives Go's zero time;
- **email verification codes**, one pending code per user. A new code is
  refused within one minute of the last one. A code lives five minutes and
  is deleted when it is verified, so it works once.

The model covers the two store-backed components that hold these rules:
`internal/db/sessions/sessions.go` (module `Sessions`) and
`internal/db/email-codes/email-codes.go` (module `EmailCodes`).
Each store is a class. It owns its key space as a Dafny `map`, and each
engine transaction is one method that changes the map atomically (on any
error the map is left as it was). Things the code gets from outside are
method parameters:

- the clock reading `now`;
- the random code drawn by `utils.GenCode`;
- whether the engine fails during the transaction.

Supporting modules:

- `Binary`: Go's `uint64`/`int64` casts and `binary.LittleEndian`;
- `GoTime`: instants and durations in nanoseconds, `Unix()`, the zero time;
- `Config`: the bucket names and the two email-code durations;
- `Wrappers` and `Storage`: `Option`, the 16-byte user id, the engine error, and the `Fault`
  that says where a transaction fails.

The code behaves as follows where it is easy to misread; the model
follows the code:

- a signature becomes blacklisted when `now` is *strictly after* the
  stored second plus 15 s (`time.After`), not at that instant;
- the stored revocation instant is cut to whole seconds (`Unix()`), so the
  window ends 15 s after the revocation second, not after the exact instant;
- a code is still accepted at exactly issue time + 5 min (the code rejects
  only when that instant is `Before` now);
- email-code records have no time-to-live in the engine. They stay until
  they are replaced or verified. An expired record stays in the store but
  does not block a new code, because any record can be replaced one minute
  after it was issued;
- `ExpiresAt` is never set, so stored records carry Go's zero time there.

Two expectations in `api/api_test.go` contradict the code and are not
modelled:

- lines 20-24 expect a signature to be blacklisted right after revocation.
  `Sessions.RevokeThenCheck` proves it is not, inside the freeze window;
- lines 40-44 expect a recent last-seen time. The stub always returns the
  zero time.

## Model

| member | source | states |
|---|---|---|
| `Binary.Int64ToUint64` | internal/db/sessions/sessions.go:28 | `uint64(x)` of an int64 is two's complement: the identity on non-negatives, at least 2^63 for negatives, and `int64(...)` undoes it |
| `Binary.Uint64ToInt64` | internal/db/sessions/sessions.go:46 | `int64(u)` always gives an int64 and is the identity below 2^63 |
| `Binary.DecodeLE` | internal/db/sessions/sessions.go:46 | the little-endian value of n bytes is below 256^n |
| `Binary.EncodeLE` | internal/db/sessions/sessions.go:28 | the little-endian encoding into n bytes has exactly n bytes |
| `Binary.DecodeEncode` | internal/db/sessions/sessions.go:27-28 | decoding the n-byte little-endian encoding of u < 256^n gives u back |
| `Binary.EncodeDecode` | internal/db/sessions/sessions.go:46 | encoding the value read from a byte string gives the same bytes |
| `Binary.PutUint64` | internal/db/sessions/sessions.go:27-28 | `PutUint64` fills an 8-byte buffer |
| `Binary.Uint64` | internal/db/sessions/sessions.go:46 | reading 8 bytes and writing the number back gives those bytes |
| `Binary.PutUint64RoundTrip` | internal/db/sessions/sessions.go:27-28 | writing a uint64 and reading it back gives the same number |
| `GoTime.Unix` | internal/db/sessions/sessions.go:28 | `Unix()` is the whole second at or before the instant: sec·1s ≤ t < (sec+1)·1s |
| `GoTime.FromUnix` | internal/db/sessions/sessions.go:46 | `time.Unix(sec, 0)` is the whole-second instant (zero nanoseconds) whose `Unix()` is `sec` |
| `GoTime.ClockSecondsFitInt64` | internal/db/sessions/sessions.go:28 | the Unix second of any clock reading fits an int64, so the casts at line 28 lose nothing |
| `Sessions.Live` | internal/db/sessions/sessions.go:38-44 | the definition: the engine returns an entry only while now is before its expiry instant; otherwise the key reads as not found |
| `Sessions.FreezeElapsed` | internal/db/sessions/sessions.go:46-47 | the definition: now is strictly after the stored Unix second plus 15 s |
| `Sessions.Blacklisted` | internal/db/sessions/sessions.go:37-51 | the definition of the lookup's result: the key is present, its entry is live and the freeze window has elapsed |
| `Sessions.ExpiryIsFinal` | internal/db/sessions/sessions.go:38-44 | an expired entry stays expired at every later instant |
| `Sessions.FreezeElapsedStays` | internal/db/sessions/sessions.go:46-47 | once the freeze window has elapsed it stays elapsed at every later instant |
| `Sessions.BlacklistedStays` | internal/db/sessions/sessions.go:37-51 | a blacklisted signature stays blacklisted at every later instant while its entry is live |
| `Sessions.Key` | internal/db/sessions/sessions.go:82-84 | the key is the bytes of `sessionsBlacklist:` followed by the signature |
| `Sessions.KeyInjective` | internal/db/sessions/sessions.go:82-84 | distinct signatures give distinct keys |
| `Sessions.EncodeInstant` | internal/db/sessions/sessions.go:27-28 | the stored value has 8 bytes and reads back as the Unix second of the revocation instant |
| `Sessions.DecodeInstant` | internal/db/sessions/sessions.go:46 | a stored value reads back as an int64 second |
| `Sessions.Revocation` | internal/db/sessions/sessions.go:27-30 | the entry written on revocation holds the revocation second and is live at exactly the instants before revocation + 30 days |
| `Sessions.NotBlacklistedWithoutLiveEntry` | internal/db/sessions/sessions.go:38-44 | a signature never revoked, or whose entry has expired, is not blacklisted |
| `Sessions.FreezeBoundary` | internal/db/sessions/sessions.go:46-47 | after a revocation at T (over any earlier entry, so a new revocation restarts the window), until it expires, the signature is blacklisted exactly when now > T rounded down to the second + 15 s |
| `Sessions.FreezeBoundaryWholeSeconds` | internal/db/sessions/sessions.go:46-47 | for a revocation at a whole second T: not blacklisted at any now ≤ T + 15 s, blacklisted at every later now until expiry |
| `Sessions.RevocationExpires` | internal/db/sessions/sessions.go:18 | after the 30-day time-to-live the signature is no longer blacklisted |
| `Sessions.RevocationFrame` | internal/db/sessions/sessions.go:30-31 | revoking one signature does not change whether any other signature is blacklisted |
| `Sessions.SessionsStore.constructor` | internal/db/sessions/sessions.go:21-23 | a new store holds no entries |
| `Sessions.SessionsStore.BlacklistToken` | internal/db/sessions/sessions.go:25-33 | sets only the signature's key, to the revocation entry; on an engine failure returns it and changes nothing |
| `Sessions.SessionsStore.IsTokenBlacklisted` | internal/db/sessions/sessions.go:35-52 | never changes the store; returns the engine's read failure as the error with false; otherwise false for a missing or expired key and the freeze rule for a live one |
| `Sessions.SessionsStore.SaveUserLastSeenTime` | internal/db/sessions/sessions.go:54-64 | always succeeds and changes nothing |
| `Sessions.SessionsStore.GetUserLastSeenTime` | internal/db/sessions/sessions.go:66-80 | always returns Go's zero time, before every clock reading, and no error |
| `Sessions.RevokeThenCheck` | internal/db/sessions/sessions.go:37-47 | in a fresh store, a signature is not blacklisted before revocation or during the freeze window, and is blacklisted more than 15 s after |
| `EmailCodes.TooSoon` | internal/db/email-codes/email-codes.go:39 | the definition: issue instant + 1 min is strictly after now |
| `EmailCodes.Expired` | internal/db/email-codes/email-codes.go:71 | the definition: issue instant + 5 min is strictly before now |
| `EmailCodes.Accepts` | internal/db/email-codes/email-codes.go:69-73 | the definition: the stored address and code match exactly and the code has not expired |
| `EmailCodes.CoolDownIsFinal` | internal/db/email-codes/email-codes.go:39 | once a pending code no longer blocks a new one, it never blocks again |
| `EmailCodes.ExpiredStays` | internal/db/email-codes/email-codes.go:71 | an expired code stays expired at every later instant |
| `EmailCodes.AcceptedEarlier` | internal/db/email-codes/email-codes.go:69-73 | a code accepted at some instant would have been accepted at every earlier instant, for the same address and code |
| `EmailCodes.Issued` | internal/db/email-codes/email-codes.go:25-29 | a freshly issued record is accepted for its own address and code and blocks a new code at its issue instant |
| `EmailCodes.CoolDownWithinLifetime` | internal/config/config.go:13-14 | while the one-minute cool-down blocks a new code, the pending code has not expired |
| `EmailCodes.LifetimeBoundary` | internal/db/email-codes/email-codes.go:69-73 | a code issued at T is accepted for its address and code exactly when now ≤ T + 5 min |
| `EmailCodes.CoolDownBoundary` | internal/db/email-codes/email-codes.go:39-41 | a new code may replace one issued at T exactly when now ≥ T + 1 min |
| `EmailCodes.EmailCodesStore.constructor` | internal/db/email-codes/email-codes.go:19-21 | a new store has no pending codes |
| `EmailCodes.EmailCodesStore.GenCode` | internal/db/email-codes/email-codes.go:23-51 | always returns the generated code; refuses with the too-soon error within the cool-down; otherwise writes the new record over the user's slot; on any error no slot changes; no other user's slot ever changes |
| `EmailCodes.EmailCodesStore.VerifyCode` | internal/db/email-codes/email-codes.go:53-88 | no pending code: (false, no error), or (false, the failure) when the commit fails; wrong address, wrong code or expired: (false, ErrVerification), slot kept; match: slot deleted, (true, no error); true implies no error; only the user's slot can change |
| `EmailCodes.IssueThenVerifyTwice` | internal/db/email-codes/email-codes.go:60-79 | an issued code is accepted once; the repeat gives (false, no error); only that user's slot changed |
| `EmailCodes.IssueTwice` | internal/db/email-codes/email-codes.go:34-49 | a second request less than a minute after the first is refused and the first code kept; otherwise the second code replaces the first |
| `EmailCodes.RetryAfterWrongCode` | internal/db/email-codes/email-codes.go:69-79 | a wrong code is refused and keeps the pending code, and the right code is accepted afterwards |
| `EmailCodes.VerifyAfterExpiry` | internal/db/email-codes/email-codes.go:69-73 | after its lifetime the right address and code are refused and the code stays pending |

## Left out

- Remote mode of the client (`api/api.go`), the HTTP server and base64/JSON transport: its embedded branches only delegate to the two stores modelled here.
- Opening the database, creating buckets and exiting on failure (`internal/db/db.go`, `cmd/aiplan-mem/main.go`), and reading the configuration from the environment: only the constants of `internal/config/config.go` are used.
- The storage engines themselves. Their failures are a parameter of each transaction: `Option<StoreError>` for the blacklist, `Storage.Fault` (before the decision, or at the write or commit) for email codes. A failure to open the transaction is folded into the read failure.
- Badger's native expiry: an entry written at t with a 30-day TTL is modelled as visible exactly while now < t + 30 days. The engine's rounding of the expiry to whole seconds is not modelled.
- JSON encoding of `EmailCodeData`: the record is stored as a datatype, and a record that fails to decode is one case of the read failure. Email addresses and codes are taken to be valid UTF-8: Go's `json.Marshal` replaces invalid bytes with U+FFFD, so such an address would be stored changed and later fail to match. Dafny strings cannot hold those values.
- The random code generator `utils.GenCode`: its result is the `generated` parameter.
- The clock: `time.Now()` is the `now` parameter, and each operation uses one instant where the source reads the clock twice: `GenCode` (for `CreatedAt` and for the cool-down check), `BlacklistToken` (for the stored second and for the engine's time-to-live) and `IsTokenBlacklisted` (for the engine's expiry check and for the freeze comparison).
- Clock readings outside the int64 range of Unix nanoseconds (before 1678 or after 2262), and overflow inside Go's `time.Add`.
- The 8-byte buffer filled by `PutUint64` is modelled as a value, not as an array updated in place.
- Compile-level inconsistencies between files (sessions.go takes a badger handle while db.go passes a bolt one; api.go expects a record from `GenCode`; `ErrEmailCodeTooSoon` is missing from `apierror/errors.go`; `DataStore` has no email-code store). Each file's logic is modelled on its own terms, and the too-soon refusal is its own error value `ErrEmailCodeTooSoon`.

=== FILE: binary.dfy ===
/** Go's fixed-width integers and the little-endian byte order of
    `encoding/binary`, as far as the session blacklist uses them. */
module Binary {

  newtype byte = x: int | 0 <= x < 256

  const TwoTo63: int := 0x8000_0000_0000_0000
  const TwoTo64: int := 0x1_0000_0000_0000_0000

  type uint64 = x: int | 0 <= x < TwoTo64

  predicate IsInt64(x: int) {
    -TwoTo63 <= x < TwoTo63
  }

  /** Go's conversion `uint64(x)` of an int64: two's complement. */
  function Int64ToUint64(x: int): (u: uint64)
    requires IsInt64(x)
    ensures x >= 0 ==> u == x
    ensures x < 0 ==> u >= TwoTo63
    ensures Uint64ToInt64(u) == x
  {
    if x >= 0 then x else x + TwoTo64
  }

  /** Go's conversion `int64(u)` of a uint64: two's complement. */
  function Uint64ToInt64(u: uint64): (x: int)
    ensures IsInt64(x)
    ensures u < TwoTo63 ==> x == u
  {
    if u < TwoTo63 then u else u - TwoTo64
  }

  function Pow256(n: nat): (p: nat)
    ensures p > 0
  {
    if n == 0 then 1 else 256 * Pow256(n - 1)
  }

  /** The low n bytes of u, least significant first. */
  function EncodeLE(u: nat, n: nat): (b: seq<byte>)
    ensures |b| == n
  {
    if n == 0 then [] else [(u % 256) as byte] + EncodeLE(u / 256, n - 1)
  }

  /** The number whose little-endian digits in base 256 are b. */
  function DecodeLE(b: seq<byte>): (u: nat)
    ensures u < Pow256(|b|)
  {
    if |b| == 0 then 0 else b[0] as nat + 256 * DecodeLE(b[1..])
  }

  lemma {:induction false} DecodeEncode(u: nat, n: nat)
    requires u < Pow256(n)
    ensures DecodeLE(EncodeLE(u, n)) == u
  {
    if n > 0 {
      var b := EncodeLE(u, n);
      assert b[1..] == EncodeLE(u / 256, n - 1);
      DecodeEncode(u / 256, n - 1);
    }
  }

  lemma {:induction false} EncodeDecode(b: seq<byte>)
    ensures EncodeLE(DecodeLE(b), |b|) == b
  {
    if |b| > 0 {
      var u := DecodeLE(b);
      assert u % 256 == b[0] as int && u / 256 == DecodeLE(b[1..]);
      EncodeDecode(b[1..]);
    }
  }

  /** `binary.LittleEndian.PutUint64` into a fresh 8-byte buffer. */
  function PutUint64(u: uint64): (b: seq<byte>)
    ensures |b| == 8
  {
    EncodeLE(u, 8)
  }

  /** `binary.LittleEndian.Uint64`: reads the first 8 bytes (Go panics on a
      shorter slice). */
  function Uint64(b: seq<byte>): (u: uint64)
    requires |b| >= 8
    ensures PutUint64(u) == b[..8]
  {
    assert Pow256(8) == TwoTo64;
    EncodeDecode(b[..8]);
    DecodeLE(b[..8])
  }

  /** Writing a uint64 and reading it back gives the same number. */
  lemma PutUint64RoundTrip(u: uint64)
    ensures Uint64(PutUint64(u)) == u
  {
    assert Pow256(8) == TwoTo64;
    DecodeEncode(u, 8);
    assert PutUint64(u)[..8] == PutUint64(u);
  }
}

=== FILE: config.dfy ===
/** The fixed names and durations of the service. */
module Config {
  import opened GoTime

  /** Key prefix of the session blacklist (the source spells the constant
      `SessionsBlaclistBucket`). */
  const SessionsBlaclistBucket: string := "sessionsBlacklist"
  const EmailCodesBucket: string := "emailCodes"

  /** How long an issued email code can be verified. */
  const EmailCodeLifeTime: Duration := 5 * Minute
  /** How long a user must wait before a new code replaces a pending one. */
  const EmailCodeLimitReq: Duration := Minute
}

=== FILE: email_codes.dfy ===
/** The email-verification code store: each user id has at most one pending
    code, issued with a rate limit and consumed by a successful
    verification. The engine's bucket is owned as a map from user ids to
    records; the engine keeps records until they are overwritten or
    deleted (it has no time-to-live). */
module EmailCodes {
  import opened Wrappers
  import opened Storage
  import opened GoTime
  import opened Config

  /** A pending code: the address it confirms, the code, and when it was
      issued. `expiresAt` is part of the record but nothing sets it, so it
      stays Go's zero time. */
  datatype EmailCodeData = EmailCodeData(newEmail: string, code: string, createdAt: Instant, expiresAt: Instant)

  datatype CodeError =
    | ErrVerification              // wrong address, wrong code, or expired
    | ErrEmailCodeTooSoon          // a new code was asked for within the cool-down
    | StoreFailure(cause: StoreError)

  /** A pending code blocks a new one while its issue instant plus the
      one-minute cool-down is still after `now`. */
  predicate TooSoon(pending: EmailCodeData, now: Instant) {
    After(Add(pending.createdAt, EmailCodeLimitReq), now)
  }

  /** A code has expired once its issue instant plus the five-minute
      lifetime is before `now`. */
  predicate Expired(pending: EmailCodeData, now: Instant) {
    Before(Add(pending.createdAt, EmailCodeLifeTime), now)
  }

  /** What verification accepts: the exact address and code, unexpired. */
  predicate Accepts(pending: EmailCodeData, email: string, code: string, now: Instant) {
    pending.newEmail == email && pending.code == code && !Expired(pending, now)
  }

  /** Once the cool-down of a pending code is over, it stays over. */
  lemma CoolDownIsFinal(pending: EmailCodeData, t1: Instant, t2: Instant)
    requires !TooSoon(pending, t1) && t1 <= t2
    ensures !TooSoon(pending, t2)
  {
  }

  /** An expired code stays expired. */
  lemma ExpiredStays(pending: EmailCodeData, t1: Instant, t2: Instant)
    requires Expired(pending, t1) && t1 <= t2
    ensures Expired(pending, t2)
  {
  }

  /** A code that verification accepts at some instant is accepted at
      every earlier instant too, for the same address and code. */
  lemma AcceptedEarlier(pending: EmailCodeData, email: string, code: string, t1: Instant, t2: Instant)
    requires Accepts(pending, email, code, t2) && t1 <= t2
    ensures Accepts(pending, email, code, t1)
  {
  }

  /** The record written when `code` is issued to confirm `newEmail` at `now`. */
  function Issued(newEmail: string, code: string, now: Instant): (d: EmailCodeData)
    ensures Accepts(d, newEmail, code, now) && TooSoon(d, now)
  {
    EmailCodeData(newEmail, code, now, ZeroTime)
  }

  /** While the cool-down still blocks a new code, the pending code has not
      expired: the cool-down is shorter than the lifetime. */
  lemma CoolDownWithinLifetime(pending: EmailCodeData, now: Instant)
    requires TooSoon(pending, now)
    ensures !Expired(pending, now)
  {
  }

  /** A code issued at `issuedAt` is accepted for the matching address and
      code exactly up to and including `issuedAt` + 5 minutes. */
  lemma LifetimeBoundary(email: string, code: string, issuedAt: Instant, now: Instant)
    ensures Accepts(Issued(email, code, issuedAt), email, code, now) <==> now <= issuedAt + 5 * Minute
  {
  }

  /** A new code may replace a pending one exactly from its issue instant
      plus one minute on. */
  lemma CoolDownBoundary(email: string, code: string, issuedAt: Instant, now: Instant)
    ensures !TooSoon(Issued(email, code, issuedAt), now) <==> now >= issuedAt + Minute
  {
  }

  class EmailCodesStore {
    /** The `EmailCodesBucket` bucket: one slot per user id. */
    var codes: map<UserId, EmailCodeData>

    constructor ()
      ensures codes == map[]
    {
      codes := map[];
    }

    /** Issues `generated` (the freshly drawn random code) for `userId` to
        confirm `newEmail`, in one read-then-write transaction at `now`.
        The code is returned whatever happens; only `err` tells rejection.
        A pending code still inside its one-minute cool-down refuses the
        request; otherwise the slot is overwritten. On any error the slot
        is left as it was. */
    method GenCode(userId: UserId, newEmail: string, generated: string, now: ClockReading, fault: Fault)
      returns (code: string, err: Option<CodeError>)
      modifies this
      ensures code == generated
      ensures fault.ReadFault? ==> err == Some(StoreFailure(fault.cause))
      ensures !fault.ReadFault? && userId in old(codes) && TooSoon(old(codes)[userId], now)
          ==> err == Some(ErrEmailCodeTooSoon)
      ensures !fault.ReadFault? && (userId !in old(codes) || !TooSoon(old(codes)[userId], now))
          ==> err == if fault.WriteFault? then Some(StoreFailure(fault.cause)) else None
      ensures err.None? ==> codes == old(codes)[userId := Issued(newEmail, generated, now)]
      ensures err.Some? ==> codes == old(codes)
    {
      var data := Issued(newEmail, generated, now);
      code := data.code;
      if fault.ReadFault? {
        return code, Some(StoreFailure(fault.cause));
      }
      if userId in codes {
        var pending := codes[userId];
        if After(Add(pending.createdAt, EmailCodeLimitReq), now) {
          return code, Some(ErrEmailCodeTooSoon);
        }
      }
      if fault.WriteFault? {
        return code, Some(StoreFailure(fault.cause));
      }
      codes := codes[userId := data];
      err := None;
    }

    /** Checks `email` and `code` against the pending code of `userId` in
        one read-then-write transaction at `now`. No pending code gives
        (false, no error), unless committing the transaction fails. A
        wrong address, a wrong code or an expired code gives
        (false, ErrVerification) and keeps the code for another try.
        A match deletes the code, so it is accepted once, and gives
        (true, no error). On any error nothing changes. */
    method VerifyCode(userId: UserId, email: string, code: string, now: ClockReading, fault: Fault)
      returns (verified: bool, err: Option<CodeError>)
      modifies this
      ensures verified ==> err.None?
      ensures fault.ReadFault? ==> !verified && err == Some(StoreFailure(fault.cause))
      ensures !fault.ReadFault? && userId !in old(codes)
          ==> !verified && err == if fault.WriteFault? then Some(StoreFailure(fault.cause)) else None
      ensures !fault.ReadFault? && userId in old(codes) && !Accepts(old(codes)[userId], email, code, now)
          ==> !verified && err == Some(ErrVerification)
      ensures !fault.ReadFault? && userId in old(codes) && Accepts(old(codes)[userId], email, code, now)
          ==> if fault.WriteFault? then !verified && err == Some(StoreFailure(fault.cause))
              else verified && err.None?
      ensures codes == if verified then old(codes) - {userId} else old(codes)
    {
      verified := false;
      err := None;
      if fault.ReadFault? {
        return false, Some(StoreFailure(fault.cause));
      }
      if userId !in codes {
        // nothing to check; the transaction still commits
        if fault.WriteFault? {
          return false, Some(StoreFailure(fault.cause));
        }
        return verified, None;
      }
      var pending := codes[userId];
      if pending.newEmail != email || pending.code != code
        || Before(Add(pending.createdAt, EmailCodeLifeTime), now)
      {
        return false, Some(ErrVerification);
      }
      if fault.WriteFault? {
        return false, Some(StoreFailure(fault.cause));
      }
      codes := codes - {userId};
      verified := true;
    }
  }

  /** Issue then verify twice: the code is accepted once, the repeat finds
      nothing pending, and only `userId`'s slot ends up changed. */
  method IssueThenVerifyTwice(s: EmailCodesStore, userId: UserId, email: string, generated: string,
                              issuedAt: ClockReading, verifiedAt: ClockReading)
    returns (first: bool, firstErr: Option<CodeError>, second: bool, secondErr: Option<CodeError>)
    requires userId !in s.codes || !TooSoon(s.codes[userId], issuedAt)
    requires issuedAt <= verifiedAt <= issuedAt + EmailCodeLifeTime
    modifies s
    ensures first && firstErr.None?
    ensures !second && secondErr.None?
    ensures s.codes == old(s.codes) - {userId}
  {
    var code, err := s.GenCode(userId, email, generated, issuedAt, NoFault);
    first, firstErr := s.VerifyCode(userId, email, code, verifiedAt, NoFault);
    second, secondErr := s.VerifyCode(userId, email, code, verifiedAt, NoFault);
  }

  /** Two requests for one user: the second is refused, and the first code
      kept, when it comes less than a minute after the first; otherwise the
      second code replaces the first. */
  method IssueTwice(s: EmailCodesStore, userId: UserId, email1: string, code1: string,
                    email2: string, code2: string, t1: ClockReading, t2: ClockReading)
    returns (err1: Option<CodeError>, err2: Option<CodeError>)
    requires userId !in s.codes || !TooSoon(s.codes[userId], t1)
    modifies s
    ensures err1.None?
    ensures err2 == if t2 < t1 + EmailCodeLimitReq then Some(ErrEmailCodeTooSoon) else None
    ensures s.codes == old(s.codes)[userId := if t2 < t1 + EmailCodeLimitReq
                                              then Issued(email1, code1, t1)
                                              else Issued(email2, code2, t2)]
  {
    var c;
    c, err1 := s.GenCode(userId, email1, code1, t1, NoFault);
    c, err2 := s.GenCode(userId, email2, code2, t2, NoFault);
  }

  /** A failed attempt (wrong code) leaves the pending code in place, and
      the right code is still accepted afterwards. */
  method RetryAfterWrongCode(s: EmailCodesStore, userId: UserId, email: string, code: string, wrong: string,
                             t1: ClockReading, t2: ClockReading)
    returns (firstErr: Option<CodeError>, second: bool)
    requires userId in s.codes && s.codes[userId].newEmail == email && s.codes[userId].code == code
    requires wrong != code
    requires t2 <= s.codes[userId].createdAt + EmailCodeLifeTime
    modifies s
    ensures firstErr == Some(ErrVerification)
    ensures second
    ensures s.codes == old(s.codes) - {userId}
  {
    var first;
    first, firstErr := s.VerifyCode(userId, email, wrong, t1, NoFault);
    var err;
    second, err := s.VerifyCode(userId, email, code, t2, NoFault);
  }

  /** After its lifetime even the right address and code are refused, and
      the code stays pending. */
  method VerifyAfterExpiry(s: EmailCodesStore, userId: UserId, email: string, generated: string,
                           issuedAt: ClockReading, late: ClockReading)
    returns (verified: bool, err: Option<CodeError>)
    requires userId !in s.codes || !TooSoon(s.codes[userId], issuedAt)
    requires late > issuedAt + EmailCodeLifeTime
    modifies s
    ensures !verified && err == Some(ErrVerification)
    ensures s.codes == old(s.codes)[userId := Issued(email, generated, issuedAt)]
  {
    var code, e := s.GenCode(userId, email, generated, issuedAt, NoFault);
    verified, err := s.VerifyCode(userId, email, code, late, NoFault);
  }
}

=== FILE: gotime.dfy ===
/** The part of Go's `time` package the stores use. An instant is a number
    of nanoseconds since the Unix epoch; a duration is a number of
    nanoseconds, as Go's `time.Duration` is. */
module GoTime {
  import opened Binary

  type Instant = int
  type Duration = int

  /** What `time.Now()` can yield here: an instant whose Unix nanosecond
      count fits an int64 (years 1678 to 2262). */
  type ClockReading = t: Instant | IsInt64(t)

  const Second: Duration := 1_000_000_000
  const Minute: Duration := 60 * Second
  const Hour: Duration := 60 * Minute

  /** `time.Time{}`: January 1, year 1, 00:00:00 UTC. */
  const ZeroTime: Instant := -62_135_596_800 * Second

  /** `t.Unix()`: whole seconds since the epoch, rounded down. */
  function Unix(t: Instant): (sec: int)
    ensures sec * Second <= t < (sec + 1) * Second
  {
    t / Second
  }

  /** `time.Unix(sec, 0)`. */
  function FromUnix(sec: int): (t: Instant)
    ensures Unix(t) == sec && t % Second == 0
  {
    sec * Second
  }

  function Add(t: Instant, d: Duration): Instant {
    t + d
  }

  predicate After(t: Instant, u: Instant) {
    t > u
  }

  predicate Before(t: Instant, u: Instant) {
    t < u
  }

  /** Every clock reading's Unix seconds fit an int64. */
  lemma ClockSecondsFitInt64(t: ClockReading)
    ensures IsInt64(Unix(t))
  {
    assert IsInt64(t);
    var sec := Unix(t);
    assert sec * Second <= t < TwoTo63 <= TwoTo63 * Second;
    assert -TwoTo63 * Second <= -TwoTo63 <= t < (sec + 1) * Second;
  }
}

=== FILE: sessions.dfy ===
/** The session store: a blacklist of revoked token signatures with a
    freeze window, and the disabled last-seen records. The blacklist lives
    in an embedded key-value engine with per-entry time-to-live; the model
    owns that engine's key space as a map from keys to entries. */
module Sessions {
  import opened Wrappers
  import opened Storage
  import opened Binary
  import opened GoTime
  import opened Config

  /** How long a blacklist entry is kept: 30 days, longer than any refresh
      token lives. */
  const RefreshTokenTTL: Duration := 24 * 30 * Hour

  /** How long after revocation a signature is still reported as not
      blacklisted, so that requests already in flight are not rejected. */
  const FreezeWindow: Duration := 15 * Second

  predicate IsAscii(s: string) {
    forall i | 0 <= i < |s| :: s[i] as int < 128
  }

  /** The bytes of an ASCII string (Go's `[]byte(s)`). */
  function AsciiBytes(s: string): (b: seq<byte>)
    requires IsAscii(s)
    ensures |b| == |s|
    ensures forall i | 0 <= i < |s| :: b[i] as int == s[i] as int
  {
    seq(|s|, i requires 0 <= i < |s| => s[i] as int as byte)
  }

  const KeyPrefix: seq<byte> := AsciiBytes(SessionsBlaclistBucket + ":")

  /** The engine key of a signature: the bucket name, a colon, then the
      signature's bytes. */
  function Key(signature: seq<byte>): (k: seq<byte>)
    ensures |k| == |KeyPrefix| + |signature|
    ensures k[..|KeyPrefix|] == KeyPrefix && k[|KeyPrefix|..] == signature
  {
    KeyPrefix + signature
  }

  /** Distinct signatures have distinct keys. */
  lemma KeyInjective(a: seq<byte>, b: seq<byte>)
    requires Key(a) == Key(b)
    ensures a == b
  {
    assert a == Key(a)[|KeyPrefix|..];
  }

  /** A value in the engine together with the instant at which its
      time-to-live runs out. */
  datatype Entry = Entry(value: seq<byte>, expiresAt: Instant)

  /** The engine returns an entry only until its time-to-live runs out;
      after that it is as if the key had never been written. */
  predicate Live(e: Entry, now: Instant) {
    Before(now, e.expiresAt)
  }

  /** The 8-byte value stored on revocation: the Unix second of `now`, as a
      uint64 in little-endian order. */
  function EncodeInstant(now: ClockReading): (v: seq<byte>)
    ensures |v| == 8
    ensures DecodeInstant(v) == Unix(now)
  {
    ClockSecondsFitInt64(now);
    PutUint64RoundTrip(Int64ToUint64(Unix(now)));
    PutUint64(Int64ToUint64(Unix(now)))
  }

  /** The Unix second a stored value holds, read back as an int64. */
  function DecodeInstant(v: seq<byte>): (sec: int)
    requires |v| >= 8
    ensures IsInt64(sec)
  {
    Uint64ToInt64(Uint64(v))
  }

  /** Every value under a blacklist key is 8 bytes long. */
  ghost predicate WellFormed(entries: map<seq<byte>, Entry>) {
    forall k | k in entries :: |entries[k].value| == 8
  }

  /** The entry written when `signature` is revoked at `now`. */
  function Revocation(now: ClockReading): (e: Entry)
    ensures |e.value| == 8 && DecodeInstant(e.value) == Unix(now)
    ensures forall t :: Live(e, t) <==> t < now + RefreshTokenTTL
  {
    Entry(EncodeInstant(now), Add(now, RefreshTokenTTL))
  }

  /** The freeze rule: a revocation recorded at Unix second `revokedAt`
      blocks only once `now` is strictly after that second plus the freeze
      window. */
  predicate FreezeElapsed(revokedAt: int, now: Instant) {
    After(now, Add(FromUnix(revokedAt), FreezeWindow))
  }

  /** Whether `signature` counts as blacklisted at `now`: a live entry
      exists for its key and the freeze window has elapsed. */
  ghost predicate Blacklisted(entries: map<seq<byte>, Entry>, signature: seq<byte>, now: Instant)
    requires WellFormed(entries)
  {
    var k := Key(signature);
    k in entries && Live(entries[k], now) && FreezeElapsed(DecodeInstant(entries[k].value), now)
  }

  /** An expired entry stays expired. */
  lemma ExpiryIsFinal(e: Entry, t1: Instant, t2: Instant)
    requires !Live(e, t1) && t1 <= t2
    ensures !Live(e, t2)
  {
  }

  /** Once the freeze window of a revocation has elapsed, it stays elapsed. */
  lemma FreezeElapsedStays(revokedAt: int, t1: Instant, t2: Instant)
    requires FreezeElapsed(revokedAt, t1) && t1 <= t2
    ensures FreezeElapsed(revokedAt, t2)
  {
  }

  /** A blacklisted signature stays blacklisted at every later instant
      while its entry is live. */
  lemma BlacklistedStays(entries: map<seq<byte>, Entry>, signature: seq<byte>, t1: Instant, t2: Instant)
    requires WellFormed(entries)
    requires Blacklisted(entries, signature, t1) && t1 <= t2
    requires Live(entries[Key(signature)], t2)
    ensures Blacklisted(entries, signature, t2)
  {
    FreezeElapsedStays(DecodeInstant(entries[Key(signature)].value), t1, t2);
  }

  /** A signature whose key has no live entry is not blacklisted. */
  lemma NotBlacklistedWithoutLiveEntry(entries: map<seq<byte>, Entry>, signature: seq<byte>, now: Instant)
    requires WellFormed(entries)
    requires Key(signature) !in entries || !Live(entries[Key(signature)], now)
    ensures !Blacklisted(entries, signature, now)
  {
  }

  /** After a revocation at instant `revokedAt` and until the entry
      expires, the signature is blacklisted exactly when `now` is strictly
      after the revocation instant, rounded down to the second, plus 15
      seconds. */
  lemma FreezeBoundary(entries: map<seq<byte>, Entry>, signature: seq<byte>, revokedAt: ClockReading, now: Instant)
    requires WellFormed(entries)
    requires now < revokedAt + RefreshTokenTTL
    ensures WellFormed(entries[Key(signature) := Revocation(revokedAt)])
    ensures Blacklisted(entries[Key(signature) := Revocation(revokedAt)], signature, now)
        <==> now > revokedAt - revokedAt % Second + FreezeWindow
  {
    assert Unix(revokedAt) * Second == revokedAt - revokedAt % Second;
  }

  /** When the revocation instant is a whole second T, the signature is
      not blacklisted at any instant up to T + 15 s and is blacklisted at
      every later instant until the entry expires. */
  lemma FreezeBoundaryWholeSeconds(entries: map<seq<byte>, Entry>, signature: seq<byte>, revokedAt: ClockReading, now: Instant)
    requires WellFormed(entries)
    requires revokedAt % Second == 0
    requires now < revokedAt + RefreshTokenTTL
    ensures WellFormed(entries[Key(signature) := Revocation(revokedAt)])
    ensures Blacklisted(entries[Key(signature) := Revocation(revokedAt)], signature, now)
        <==> now > revokedAt + FreezeWindow
  {
    FreezeBoundary(entries, signature, revokedAt, now);
  }

  /** Once the 30-day time-to-live has run out the signature is no longer
      blacklisted. */
  lemma RevocationExpires(entries: map<seq<byte>, Entry>, signature: seq<byte>, revokedAt: ClockReading, now: Instant)
    requires WellFormed(entries)
    requires now >= revokedAt + RefreshTokenTTL
    ensures WellFormed(entries[Key(signature) := Revocation(revokedAt)])
    ensures !Blacklisted(entries[Key(signature) := Revocation(revokedAt)], signature, now)
  {
  }

  /** Revoking one signature does not change whether any other signature
      is blacklisted. */
  lemma RevocationFrame(entries: map<seq<byte>, Entry>, signature: seq<byte>, other: seq<byte>, revokedAt: ClockReading, now: Instant)
    requires WellFormed(entries)
    requires other != signature
    ensures WellFormed(entries[Key(signature) := Revocation(revokedAt)])
    ensures Blacklisted(entries[Key(signature) := Revocation(revokedAt)], other, now)
        == Blacklisted(entries, other, now)
  {
    if Key(other) == Key(signature) {
      KeyInjective(other, signature);
    }
  }

  class SessionsStore {
    /** The blacklist's key space in the engine. */
    var entries: map<seq<byte>, Entry>

    ghost predicate Valid()
      reads this
    {
      WellFormed(entries)
    }

    constructor ()
      ensures Valid() && entries == map[]
    {
      entries := map[];
    }

    /** Revokes `signature` at `now`: one update transaction sets its key
        to the current Unix second with a 30-day time-to-live. `fault` is
        the engine's failure to set or commit the entry, if any; then
        nothing changes and the failure is returned. */
    method BlacklistToken(signature: seq<byte>, now: ClockReading, fault: Option<StoreError>)
      returns (err: Option<StoreError>)
      requires Valid()
      modifies this
      ensures Valid()
      ensures err == fault
      ensures fault.None? ==> entries == old(entries)[Key(signature) := Revocation(now)]
      ensures fault.Some? ==> entries == old(entries)
    {
      ClockSecondsFitInt64(now);
      var tm := PutUint64(Int64ToUint64(Unix(now)));
      var e := Entry(tm, Add(now, RefreshTokenTTL));
      if fault.Some? {
        return fault;
      }
      entries := entries[Key(signature) := e];
      err := None;
    }

    /** Looks `signature` up in a read-only transaction. A missing or
        expired key gives (false, no error); a read failure other than
        key-not-found (`fault`) gives (false, that failure); otherwise the
        freeze rule decides. */
    method IsTokenBlacklisted(signature: seq<byte>, now: ClockReading, fault: Option<StoreError>)
      returns (blacklisted: bool, err: Option<StoreError>)
      requires Valid()
      ensures err == fault
      ensures blacklisted <==> fault.None? && Blacklisted(entries, signature, now)
      ensures fault.None? && (Key(signature) !in entries || !Live(entries[Key(signature)], now))
          ==> !blacklisted && err.None?
    {
      blacklisted := false;
      if fault.Some? {
        return blacklisted, fault;
      }
      var k := Key(signature);
      if k !in entries || !Live(entries[k], now) {
        return blacklisted, None;
      }
      var t := FromUnix(DecodeInstant(entries[k].value));
      blacklisted := After(now, Add(t, FreezeWindow));
      err := None;
    }

    /** Recording when a user was last seen is switched off: the call
        succeeds and stores nothing. */
    method SaveUserLastSeenTime(userId: UserId) returns (err: Option<StoreError>)
      ensures err.None?
    {
      err := None;
    }

    /** Reading when a user was last seen is switched off: it always gives
        Go's zero time, which is earlier than every clock reading, and no
        error. */
    method GetUserLastSeenTime(userId: UserId) returns (lastSeen: Instant, err: Option<StoreError>)
      ensures lastSeen == ZeroTime && err.None?
      ensures forall now: ClockReading :: Before(lastSeen, now)
    {
      lastSeen, err := ZeroTime, None;
      forall now: ClockReading
        ensures Before(lastSeen, now)
      {
        assert IsInt64(now);
      }
    }
  }

  /** A client of a fresh store: a signature revoked at `revokedAt` is not
      blacklisted before, nor at `early` within the freeze window, and is
      blacklisted at `late`, more than 15 seconds later. */
  method RevokeThenCheck(signature: seq<byte>, revokedAt: ClockReading, early: ClockReading, late: ClockReading)
    returns (before: bool, duringFreeze: bool, afterFreeze: bool)
    requires revokedAt <= early <= revokedAt - revokedAt % Second + FreezeWindow
    requires revokedAt + FreezeWindow < late < revokedAt + RefreshTokenTTL
    ensures !before && !duringFreeze && afterFreeze
  {
    var s := new SessionsStore();
    var err;
    before, err := s.IsTokenBlacklisted(signature, revokedAt, None);
    err := s.BlacklistToken(signature, revokedAt, None);
    duringFreeze, err := s.IsTokenBlacklisted(signature, early, None);
    FreezeBoundary(map[], signature, revokedAt, early);
    afterFreeze, err := s.IsTokenBlacklisted(signature, late, None);
    FreezeBoundary(map[], signature, revokedAt, late);
  }
}

=== FILE: wrappers.dfy ===
/** Option, and the storage engine's failures as the model sees them. */
module Wrappers {

  datatype Option<+T> = None | Some(value: T)
}

module Storage {
  import opened Binary

  /** A user id (a UUID, 16 bytes), the key of per-user records. */
  type UserId = s: seq<byte> | |s| == 16 witness seq(16, _ => 0)

  /** An error reported by the embedded key-value engine (I/O, a closed
      database, a record that does not decode). Its content is opaque. */
  datatype StoreError = StoreError(reason: string)

  /** How the engine behaves during one read-then-write transaction:
      it works, it fails before the transaction has decided anything
      (opening the transaction or decoding the stored record), or it fails
      when the write is made or the transaction is committed (a read-write
      transaction commits even when it wrote nothing). Either failure rolls the
      transaction back. */
  datatype Fault = NoFault | ReadFault(cause: StoreError) | WriteFault(cause: StoreError)
}
